=== FILE: README.md ===
# Bolt asset cache and root canvas, in Dafny

This project models two pieces of the Bolt Unity UI framework.

The first is `AssetCache<T>`. It is a dictionary from an address to an
Addressables load handle. `Store` has four overloads: address, location,
reference and label. The model also covers `Get`, `Dispose` and the
bookkeeping of `ResourceManager`. That bookkeeping is the set of tracked
operations behind `emptyLoadQueue`, plus the run-once guard of
`PrepareLoading`.

The second is the control flow of `RootCanvas`: scene replacement around an
optional fade, the null-gated popup and overlay pushes, and the `Bootup`
order.

Every async method is split at its awaits into atomic steps. Between two steps
of one call, any step of any other call may run. A suspended call is a frame
value:
- `Call` for the single-asset overloads;
- `Batch` for the label overload;
- `Tracking` for `trackLoadingStatus`;
- `Preparing` for `PrepareLoading`.

The Addressables backend is an oracle. The step that consumes a result takes
it as a parameter: the resolved locations, the outcome of a load, or whether
`InitializeAsync` succeeded.

The cache's `handles` sequence is both the handle table and the log of every
load issued to the backend. Only issuing a load appends to it, so
`LoadCount(handles, key)` counts the loads ever issued for a key.

`RootCanvas` operations are step functions over `{currentScene,
transitionPrefab}` that also return the events they cause. The stack
primitives `Replace` and `Push`, and the transition animation, are opaque
events. What `Replace` and `Push` return is a parameter. No stack semantics
are asserted.

Modules:
- `Wrappers`: `Option`.
- `AssetCache`: the cache, its steps, `Get` and `Dispose`.
- `Harvests`: a generic any-order collection, used by the label overload.
- `CacheScenarios`: interleavings of cache steps.
- `ResourceManager`: the tracker and the init guard.
- `RootCanvas`.

Two behaviours of the code differ from what a memoizing cache would be
expected to do, and the model follows the code:

- **Deduplication is not race-free.** A memoizing cache would be expected to
  issue at most one backend load per key, even under concurrent requests.
  This code does not. The dictionary
  check (line 95) and the insertion (line 115) are separated by the
  location-resolution await (line 101). Two concurrent first requests
  therefore issue two loads (`CacheScenarios.CheckThenInsertRace`). `Dispose`
  releases only the handle each key names at that moment, so the other one
  is not released (`CacheScenarios.OverwrittenHandleNeverReleased`,
  `CacheScenarios.RestoredHandleWinsBack`).
  Deduplication also holds only when the address equals the location's
  primary key (`CacheScenarios.MismatchedPrimaryKeyReloads`). The reference
  and label overloads never consult the dictionary at all
  (`CacheScenarios.ReferenceAlwaysReloads`).
- **Failures are rethrown on the shared path.** A caller of a memoizing cache
  would be expected to see a failed load only as a missing asset. In this
  code, only the caller that issued the load catches its fault (lines
  113-130). A faulted handle stays in the
  dictionary. A later `Store(address)` awaits it at line 96, outside any
  `try`, so that caller's task faults, and `Get` rethrows too
  (`CacheScenarios.FaultedHandleStays`,
  `CacheScenarios.SecondCallerSharesPendingLoad`).

## Model

| member | source | states |
|---|---|---|
| AssetCache.StoreLocation | Assets/Bolt/Scripts/Resource/ResourceManager.cs:105-115 | a null location logs a warning, returns default and changes nothing; otherwise nothing is logged and exactly one load is issued whatever the dictionary held, its handle is pending and stored under the location's primary key before the await, and every other address keeps its handle |
| AssetCache.Settle | Assets/Bolt/Scripts/Resource/ResourceManager.cs:115-116 | the backend settles one pending load, faulted exactly when it failed, and touches no other handle and not the dictionary |
| AssetCache.ResumeLoad | Assets/Bolt/Scripts/Resource/ResourceManager.cs:116-130 | `Store(location)` always returns, never throws, and issues nothing; the result is non-null exactly when the load produced an asset, and then the handle is re-stored under its key; a null asset or a fault leaves the dictionary as it was, so the faulted handle stays; the step logs exactly when the load faulted (the caught exception) |
| AssetCache.StoreAddressAsWritten | Assets/Bolt/Scripts/Resource/ResourceManager.cs:95-99 | as written, a null address faults the returned `Task`, because `ContainsKey` is called before the null check; any other address behaves as in `StoreAddress` |
| AssetCache.StoreAddress | Assets/Bolt/Scripts/Resource/ResourceManager.cs:93-101 | a stored address awaits the handle already there and issues no load; a null address, or an absent empty one, returns default with nothing changed; exactly an absent non-empty address goes on to resolve locations |
| AssetCache.ResumeEntry | Assets/Bolt/Scripts/Resource/ResourceManager.cs:96 | awaiting a shared handle returns its asset when it loaded and rethrows exactly when it faulted |
| AssetCache.ResumeLocations | Assets/Bolt/Scripts/Resource/ResourceManager.cs:63-64 | a failed resolution faults the call with nothing changed, since the await is outside any `try`; otherwise only the first location is stored: no location gives default and no change, with the null-location warning logged, and otherwise one pending load for the first location, whose primary key now names that load while every other address keeps its handle |
| AssetCache.StoreReference | Assets/Bolt/Scripts/Resource/ResourceManager.cs:59-69 | a valid reference goes on to resolve locations, and a null or invalid one returns default; the outcome does not depend on the dictionary, so this overload never reuses a handle, and nothing changes before the await |
| AssetCache.StoreLabel | Assets/Bolt/Scripts/Resource/ResourceManager.cs:71-90 | a valid label goes on to resolve locations; a null or invalid one fails the assertion and returns a null list; the dictionary neither changes nor matters |
| AssetCache.IssueAll | Assets/Bolt/Scripts/Resource/ResourceManager.cs:77 | `Store(loc)` for every location, in order: one new pending handle per location, appended after the existing ones; each location's key now names one of these new loads, replacing whatever handle it named before, and every other address keeps its handle |
| AssetCache.IssueNext | Assets/Bolt/Scripts/Resource/ResourceManager.cs:77 | issuing one more location extends what issuing the earlier ones did |
| AssetCache.IssueNextLoads | Assets/Bolt/Scripts/Resource/ResourceManager.cs:77 | the next location's new pending handle lands right after the earlier locations' handles |
| AssetCache.IssueNextKeys | Assets/Bolt/Scripts/Resource/ResourceManager.cs:77 | after the next location is stored, every location issued so far still has its key naming one of the new loads |
| AssetCache.IssueNextOthers | Assets/Bolt/Scripts/Resource/ResourceManager.cs:77 | storing the next location leaves every address named by no location with its old handle |
| AssetCache.ResumeLabelLocations | Assets/Bolt/Scripts/Resource/ResourceManager.cs:75-84 | a failed resolution faults the call and issues nothing; otherwise the batch has one pending member per location, their handles are the new loads in location order, each location's key names one of those loads, every other address keeps its handle, and nothing is collected yet |
| AssetCache.IssueBatch | Assets/Bolt/Scripts/Resource/ResourceManager.cs:76-84 | the label's loads are issued, one pending member per resolved location in order, each resolved key names one of the new loads while every other address keeps its handle, and the batch invariant holds with nothing collected |
| AssetCache.FreshBatch | Assets/Bolt/Scripts/Resource/ResourceManager.cs:76 | a batch whose every member is pending has collected nothing: the list starts empty |
| AssetCache.SettledMembersStable | Assets/Bolt/Scripts/Resource/ResourceManager.cs:77-84 | steps of other calls cannot change what a settled member of a suspended batch contributes |
| AssetCache.ResumeMember | Assets/Bolt/Scripts/Resource/ResourceManager.cs:77-81 | a settled member, in any order, removes itself from the pending set and appends its asset exactly when that asset is non-null; the list stays exactly the contributions of the resumed members; the member's own `catch` logs exactly when its load faulted |
| AssetCache.BatchStable | Assets/Bolt/Scripts/Resource/ResourceManager.cs:84 | the batch invariant survives any step of any other call while the label store awaits |
| AssetCache.FinishBatch | Assets/Bolt/Scripts/Resource/ResourceManager.cs:84-86 | the list is returned only once every member's load has settled, and it holds exactly the non-null assets of the label's loads, as a multiset, in completion order |
| AssetCache.Get | Assets/Bolt/Scripts/Resource/ResourceManager.cs:46-57 | a stored key yields its handle's asset when loaded, fails the done assertion when pending, and rethrows when faulted; an unknown key fails the assertion and gives default; a null address throws |
| AssetCache.GetByReference | Assets/Bolt/Scripts/Resource/ResourceManager.cs:30-44 | an invalid reference, or a location handle not yet done, gives default; a done but failed resolution throws when its result is read (line 37); otherwise the result is exactly `Get` of the first location's primary key, or of `"(null)"` when there is none, so it can fail the assertions or rethrow as `Get` does, but never with a null key |
| AssetCache.Dispose | Assets/Bolt/Scripts/Resource/ResourceManager.cs:22-28 | every dictionary entry's handle is released exactly once, and nothing else; no handle is released twice |
| Harvests.HarvestComplete | Assets/Bolt/Scripts/Resource/ResourceManager.cs:77-81 | completing one member, whichever it is, adds exactly its contribution to what has been collected |
| Harvests.HarvestAgree | Assets/Bolt/Scripts/Resource/ResourceManager.cs:77-84 | two batches that agree on every completed member have collected the same |
| Harvests.HarvestAllPending | Assets/Bolt/Scripts/Resource/ResourceManager.cs:76 | with every member pending, nothing has been collected |
| Harvests.HarvestNonePending | Assets/Bolt/Scripts/Resource/ResourceManager.cs:84-86 | with no member pending, what has been collected is every member's contribution |
| CacheScenarios.SecondCallerSharesPendingLoad | Assets/Bolt/Scripts/Resource/ResourceManager.cs:95-130 | a `Store(address)` arriving after the first stored its pending handle shares that one load; on success both callers get the same asset; on a fault the first returns default and the second throws |
| CacheScenarios.SameLocationsSameCount | Assets/Bolt/Scripts/Resource/ResourceManager.cs:115 | the loads issued for a key depend only on the handles' locations |
| CacheScenarios.LoadCountSettle | Assets/Bolt/Scripts/Resource/ResourceManager.cs:116 | a load settling issues no load |
| CacheScenarios.CheckThenInsertRace | Assets/Bolt/Scripts/Resource/ResourceManager.cs:95-115 | two `Store(address)` calls that both pass the dictionary check before either resumes issue two loads for the key, and right after the second issue the later handle holds the entry (a load that later completes with an asset re-stores its own handle, see `RestoredHandleWinsBack`) |
| CacheScenarios.MismatchedPrimaryKeyReloads | Assets/Bolt/Scripts/Resource/ResourceManager.cs:95-119 | when the address differs from the location's primary key, a completed load is not found again and the next call for the address resolves and loads once more |
| CacheScenarios.ReferenceAlwaysReloads | Assets/Bolt/Scripts/Resource/ResourceManager.cs:59-64 | `Store(reference)` for an address already stored issues a fresh load and replaces the entry |
| CacheScenarios.FaultedHandleStays | Assets/Bolt/Scripts/Resource/ResourceManager.cs:96-130 | a faulted load stays under its key: `Get` rethrows, and a later `Store(address)` awaits the same handle and throws, with no new load |
| CacheScenarios.StoredAssetIsReused | Assets/Bolt/Scripts/Resource/ResourceManager.cs:95-124 | once a load produced an asset, `Get` returns it by address, and by a valid reference only when that reference's own location lookup is already done and lists the same first location; a later `Store(address)` returns it with no new load |
| CacheScenarios.LabelOverwritesEntry | Assets/Bolt/Scripts/Resource/ResourceManager.cs:75-77 | a `Store(label)` whose locations include an address already stored replaces that address's entry with one of the batch's new pending loads |
| CacheScenarios.OverwrittenHandleNeverReleased | Assets/Bolt/Scripts/Resource/ResourceManager.cs:22-28 | a `Dispose` that runs right after a later `Store(location)` for the same key replaced a handle does not release the replaced one |
| CacheScenarios.RestoredHandleWinsBack | Assets/Bolt/Scripts/Resource/ResourceManager.cs:114-119 | when the replaced load then completes with an asset, its own call re-stores it at line 119, so `Dispose` releases it and never releases the handle that replaced it |
| AssetCache.ReleasedKeysWitness | Assets/Bolt/Scripts/Resource/ResourceManager.cs:24-27 | every key `Dispose` covered was released by some element of the release sequence |
| CacheScenarios.FailedResolutionFaults | Assets/Bolt/Scripts/Resource/ResourceManager.cs:59-103 | a failed location resolution faults `Store(address)`, `Store(reference)` and `Store(label)` alike and issues no load, because none of their resolution awaits is inside a `try` |
| CacheScenarios.NullAddressFaults | Assets/Bolt/Scripts/Resource/ResourceManager.cs:95-99 | as written a null address faults; as intended it returns default |
| ResourceManager.EmptyLoadQueue | Assets/Bolt/Scripts/Resource/ResourceManager.cs:145-146 | `emptyLoadQueue` holds exactly when no operation is tracked |
| ResourceManager.TrackBegin | Assets/Bolt/Scripts/Resource/ResourceManager.cs:210-216 | the operation is in `_loadings` while awaited, the queue is not empty, and the call is the one that added it exactly when it was not tracked before |
| ResourceManager.TrackEnd | Assets/Bolt/Scripts/Resource/ResourceManager.cs:216-229 | on success or fault the operation is removed only if this call added it; a fault is logged and becomes default, and a success passes the value through |
| ResourceManager.BeginKeepsAccounted | Assets/Bolt/Scripts/Resource/ResourceManager.cs:212 | `_loadings` stays exactly the operations added by calls still suspended, with no operation added twice |
| ResourceManager.EndKeepsAccounted | Assets/Bolt/Scripts/Resource/ResourceManager.cs:223-229 | when any suspended call resumes, that accounting still holds for the remaining calls |
| ResourceManager.EmptyExactlyWhenNoneAdded | Assets/Bolt/Scripts/Resource/ResourceManager.cs:145 | `emptyLoadQueue` holds exactly when no suspended call added its operation |
| ResourceManager.FreshOperationIsAdded | Assets/Bolt/Scripts/Resource/ResourceManager.cs:210-239 | a task no suspended call tracks is added by its own call |
| ResourceManager.PrepareBegin | Assets/Bolt/Scripts/Resource/ResourceManager.cs:196-206 | only a caller finding no `_initTask` calls `InitializeAsync`, and it creates `_initTask` before awaiting; every other caller awaits the shared task and changes nothing |
| ResourceManager.InitializeFinished | Assets/Bolt/Scripts/Resource/ResourceManager.cs:201-202 | success completes the shared task; a fault reaches only the first caller and leaves `_initTask` incomplete |
| ResourceManager.StepKeepsPrepareInv | Assets/Bolt/Scripts/Resource/ResourceManager.cs:196-208 | any event keeps the guard's invariant: at most one initializer, and no caller returned before `_initTask` completed |
| ResourceManager.RunKeepsPrepareInv | Assets/Bolt/Scripts/Resource/ResourceManager.cs:196-208 | any sequence of events keeps that invariant |
| ResourceManager.PrepareRunsInitializeOnce | Assets/Bolt/Scripts/Resource/ResourceManager.cs:196-208 | from a fresh manager, whatever the callers and the backend do, `InitializeAsync` is called at most once and every caller that returned did so after it succeeded |
| ResourceManager.FailedInitializeIsFinal | Assets/Bolt/Scripts/Resource/ResourceManager.cs:198-206 | after a failed `InitializeAsync` the guard never changes again: no caller re-initializes, and no caller ever returns normally, so no waiting caller wakes |
| RootCanvas.SceneTraceOrder | Assets/Bolt/Scripts/UI/System/RootCanvas.cs:101-127 | one fade-in and one fade-out exactly when `transition` is set; the fade-in comes first, then the join, then the swap or its error, then the fade-out |
| RootCanvas.SetSceneInternal | Assets/Bolt/Scripts/UI/System/RootCanvas.cs:99-128 | the scene is replaced only for a non-null prefab; a null one is logged and the previous scene kept; no push happens; the current scene changes only through a `Replace` that returned; the returned `Task` faults exactly when `Replace` threw |
| RootCanvas.SetSceneOrder | Assets/Bolt/Scripts/UI/System/RootCanvas.cs:101-127 | fade-in and fade-out occur exactly when `transition` is set, and the fade-out is last whatever the load gave and even when `Replace` threw; only the fade-in comes before the join |
| RootCanvas.AddInternal | Assets/Bolt/Scripts/UI/System/RootCanvas.cs:130-158 | a null prefab logs, returns null and pushes nothing; a non-null one pushes its component once onto the given surface and returns what `Push` returned, asserting when the component is missing; no fade and no replace |
| RootCanvas.AddPopupInternal | Assets/Bolt/Scripts/UI/System/RootCanvas.cs:130-143 | only a non-null prefab is pushed, onto `Popup` only, and the pushed result is returned; a null prefab logs and returns null |
| RootCanvas.AddOverlayInternal | Assets/Bolt/Scripts/UI/System/RootCanvas.cs:145-158 | only a non-null prefab is pushed, onto `Overlay` only, and the pushed result is returned; a null prefab logs and returns null |
| RootCanvas.Bootup | Assets/Bolt/Scripts/UI/System/RootCanvas.cs:52-78 | nothing happens without an entry scene and the task completes; otherwise prepare, then the transition load, then the entry scene started with no transition, and the task completes; a prepare that throws stops there and faults the task, which is exactly when `Start` logs; a prepare that never resumes (a later caller after a failed initialization, see `ResourceManager.FailedInitializeIsFinal`) leaves the task pending and nothing is logged |
| RootCanvas.FailedSceneLoadStillFadesOut | Assets/Bolt/Scripts/UI/System/RootCanvas.cs:115-127 | a failed scene load keeps the previous scene, logs, and still fades out |
| RootCanvas.ThrowingReplaceStillFadesOut | Assets/Bolt/Scripts/UI/System/RootCanvas.cs:107-127 | a throwing `Replace` keeps the previous scene and still fades out before the returned `Task` faults |
| RootCanvas.FirstSceneHasNoFade | Assets/Bolt/Scripts/UI/System/RootCanvas.cs:66-78 | the entry scene, run with the flag `Bootup` starts it with, is set with no fade at all, after prepare and the transition load |

## Left out

- Addressables (`LoadResourceLocationsAsync`, `LoadAssetAsync`, `InitializeAsync`, `Release`): an oracle. The model takes its answers as step parameters and records each `Release` as a value.
- A load whose `LoadAssetAsync` call throws synchronously, before a handle exists (line 115): not modelled. Every load in the model yields a handle that later settles.
- `GetResult` on a pending handle (line 52) after the failed assertion: its value is unspecified. The model stops at the assertion (`NotDone`).
- AssetCache.IssueAll: it issues every location of a label in one atomic step and resumes each member only later. In the code, `Task.WhenAll` enumerates the lazy `Select` (lines 77 and 84), and each `Store(loc)` runs until its first await that does not complete at once. A load whose handle is already done when issued therefore resumes, re-storing its handle at line 119 and running the `.Then` callback, before the next location is issued. The model does not cover this. It shows only when two locations of one label share a primary key: then the entry can end up naming a later, faulted handle where the model names the earlier loaded one. Synchronous completion is engine behaviour, and the model treats every load as pending when issued.
- Task scheduling, `Task.WhenAll`, `.Then` and UniTask frames: each await is an atomic step, and any order of steps is allowed. Thread-level concurrency is not modelled.
- The Unity lifecycle (`Awake`, `OnDestroy`, `Start`, `DontDestroyOnLoad`), the singletons and the `UnobservedTaskException` hook: wiring only. Because of this, `OnDestroy` disposing the three caches (lines 170-181) is modelled only as `Dispose` itself.
- Logging and `Debug.Assert`: they appear as trace events, result variants or a `logged` flag, never as effects. The `Store(location)` warning (line 109) and caught exception (line 128) are the `logged` flag of `Stepped` and `BatchStepped`; the message text is not modelled.
- The `LoadEffect`/`LoadPrefab`/`LoadSprite` delegations (lines 232-239): each is a one-line composition of `Store` with `trackLoadingStatus`, and both parts are modelled.
- `LoadAll` (lines 241-252): left out as trivial. It clears `_loaded`, awaits `PrepareLoading` and a `WhenAll` of an empty list, then sets `_loaded`; `_loaded` is read only by an assertion.
- `Transition` (RootCanvas.cs lines 160-180): instantiation, animator parameters and frame polling are engine and floating-point behaviour. The fades are opaque events that always finish.
- RootCanvas.SetSceneInternal: it does not model a fade that throws, for instance when a missing transition prefab makes `Instantiate` fail inside `Transition`. Fades are opaque engine events here, so `Canvas.transitionPrefab` is stored by `Bootup` but read by nothing in the model.
- The `Push`/`Pop`/`Remove`/`Replace` extensions on `RectTransform` are not part of this model. `RemovePopup`, `RemoveLastPopup`, `RemoveOverlay` and `AddOverlay(T)` delegate to them in one line, so no stack or LIFO property is stated.
- `SetScene`, `AddPopup` and `AddOverlay` only start a prefab load and pass its task on. The model starts from the resolved load, which never faults because `trackLoadingStatus` turns faults into null.
- AssetCache.GetByReference: `Get(reference)` starts its own untyped location request (line 34) and reads it only if it is already done. The model takes that request's state as the `peek` parameter and does not tie it to the typed resolution a `Store` awaited, because whether Addressables has it done at once is engine behaviour.
- ResourceManager.TrackBegin: it models `_loadings` as a set of task identities, so reference equality of `Task` objects is that identity.

## Findings

| source | as written | input that shows it | evidently intended | confidence | as-written member | corrected member |
|---|---|---|---|---|---|---|
| Assets/Bolt/Scripts/Resource/ResourceManager.cs:95-99 | `dict.ContainsKey(address)` is evaluated before `string.IsNullOrEmpty(address)`, and `Dictionary.ContainsKey(null)` throws `ArgumentNullException` | `Store((string)null)` on any cache | a null address returns `default`, as the `IsNullOrEmpty` check says | not executed | AssetCache.StoreAddressAsWritten | AssetCache.StoreAddress |

=== FILE: cache.dfy ===
/**
 * A model of `AssetCache<T>`: a dictionary from address to a backend load
 * handle, with each `Store` overload split into atomic steps, one step per
 * stretch of code between two awaits.  A suspended call is a `Call` (or, for
 * the label overload, a `Batch`) frame; any other step may run between two
 * steps of one call.
 *
 * The Addressables backend is an oracle: the locations a resolution returns
 * and the outcome of a load are parameters of the steps that consume them.
 * `handles` is at once the handle table and the log of every load issued to
 * the backend: a handle id is a position in it, and only issuing a load
 * grows it.
 */
module AssetCache {
  import opened Wrappers
  import opened Harvests

  /** A resolved resource location; the cache only ever reads its primary key. */
  datatype Location = Location(primaryKey: string, internalId: string)

  /** An `AssetReferenceT<T>` or an `AssetLabelReference`, as far as the cache
      inspects it: whether `RuntimeKeyIsValid()` holds.  A null one is `None`. */
  datatype AssetKey = AssetKey(runtimeKeyValid: bool)

  type HandleId = nat

  /** The state of one backend load handle. */
  datatype Status<T> = Pending | Loaded(asset: Option<T>) | Faulted

  datatype Handle<T> = Handle(location: Location, status: Status<T>)

  /** `dict` maps an address to a handle id; `handles` holds every load ever issued, in order. */
  datatype Cache<T> = Cache(dict: map<string, HandleId>, handles: seq<Handle<T>>)

  /** What the backend reports when a load settles. */
  datatype Outcome<T> = Succeeded(asset: Option<T>) | Failed

  /** What the backend reports when a location resolution settles. */
  datatype Resolution = Resolved(locations: seq<Location>) | ResolveFailed

  /** Where a single-asset `Store` call is suspended, or how it ended. */
  datatype Call<T> =
    | Returned(result: Option<T>)   // the `Task` completed; None is `default`
    | Threw                         // the `Task` completed with an exception
    | AwaitingEntry(id: HandleId)   // awaiting a handle found in the dictionary
    | AwaitingLocations             // awaiting location resolution
    | AwaitingLoad(id: HandleId)    // awaiting the handle this call issued

  /** A step of a single-asset `Store`; `logged` says whether the step wrote
      to the log (the null-location warning or the caught load exception). */
  datatype Stepped<T> = Stepped(cache: Cache<T>, call: Call<T>, logged: bool := false)

  /** Every stored handle exists and was loaded from a location whose primary key is its address. */
  ghost predicate Valid<T>(c: Cache<T>) {
    forall k :: k in c.dict ==> c.dict[k] < |c.handles| && c.handles[c.dict[k]].location.primaryKey == k
  }

  predicate Settled<T>(c: Cache<T>, id: HandleId) {
    id < |c.handles| && !c.handles[id].status.Pending?
  }

  /** `c'` is a later state of `c`: loads are only appended, a settled handle
      never changes, and no address is ever removed from the dictionary. */
  ghost predicate Extends<T>(c: Cache<T>, c': Cache<T>) {
    && |c.handles| <= |c'.handles|
    && c.dict.Keys <= c'.dict.Keys
    && forall i :: 0 <= i < |c.handles| ==>
         && c'.handles[i].location == c.handles[i].location
         && (c.handles[i].status.Pending? || c'.handles[i].status == c.handles[i].status)
  }

  lemma ExtendsTransitive<T>(c0: Cache<T>, c1: Cache<T>, c2: Cache<T>)
    requires Extends(c0, c1) && Extends(c1, c2)
    ensures Extends(c0, c2)
  {
  }

  /** How many loads were ever issued for locations with primary key `key`. */
  function LoadCount<T>(handles: seq<Handle<T>>, key: string): nat {
    if |handles| == 0 then 0
    else LoadCount(handles[..|handles| - 1], key)
         + (if handles[|handles| - 1].location.primaryKey == key then 1 else 0)
  }

  lemma LoadCountAppend<T>(handles: seq<Handle<T>>, h: Handle<T>, key: string)
    ensures LoadCount(handles + [h], key)
            == LoadCount(handles, key) + (if h.location.primaryKey == key then 1 else 0)
  {
    assert (handles + [h])[..|handles|] == handles;
  }

  function FirstOrDefault(locations: seq<Location>): (r: Option<Location>)
    ensures r.None? <==> |locations| == 0
    ensures r.Some? ==> r.value == locations[0]
  {
    if |locations| == 0 then None else Some(locations[0])
  }

  // ---------------------------------------------------------------------------
  // Store(IResourceLocation)

  /** The synchronous part of `Store(location)`: the new load's handle is put
      under the location's primary key before the call awaits it. */
  function StoreLocation<T>(c: Cache<T>, location: Option<Location>): (r: Stepped<T>)
    requires Valid(c)
    ensures Valid(r.cache) && Extends(c, r.cache)
    // a null location: a warning, `default`, and nothing changes
    ensures location.None? ==> r.cache == c && r.call == Returned(None)
    ensures r.logged <==> location.None?
    // otherwise exactly one load is issued, whatever the dictionary held; the
    // key is present, naming the pending handle, while the call awaits it, and
    // every other address keeps its handle
    ensures location.Some? ==>
      var key := location.value.primaryKey;
      && |r.cache.handles| == |c.handles| + 1
      && LoadCount(r.cache.handles, key) == LoadCount(c.handles, key) + 1
      && r.cache.handles[|c.handles|] == Handle(location.value, Pending)
      && r.call == AwaitingLoad(|c.handles|)
      && r.cache.dict.Keys == c.dict.Keys + {key}
      && r.cache.dict[key] == |c.handles|
      && (forall k :: k in c.dict && k != key ==> r.cache.dict[k] == c.dict[k])
  {
    match location
    case None => Stepped(c, Returned(None), true)
    case Some(loc) =>
      var id := |c.handles|;
      LoadCountAppend(c.handles, Handle(loc, Pending), loc.primaryKey);
      Stepped(Cache(c.dict[loc.primaryKey := id], c.handles + [Handle(loc, Pending)]), AwaitingLoad(id))
  }

  /** The backend settles a pending load. */
  function Settle<T>(c: Cache<T>, id: HandleId, outcome: Outcome<T>): (r: Cache<T>)
    requires Valid(c) && id < |c.handles| && c.handles[id].status.Pending?
    ensures Valid(r) && Extends(c, r) && Settled(r, id)
    ensures r.dict == c.dict && |r.handles| == |c.handles|
    ensures r.handles[id].status.Faulted? <==> outcome.Failed?
    ensures outcome.Succeeded? ==> r.handles[id].status == Loaded(outcome.asset)
    ensures forall i :: 0 <= i < |c.handles| && i != id ==> r.handles[i] == c.handles[i]
  {
    var status := match outcome
      case Succeeded(a) => Loaded(a)
      case Failed => Faulted;
    c.(handles := c.handles[id := Handle(c.handles[id].location, status)])
  }

  /** The rest of `Store(location)`, once its own handle has settled: a failed
      load is caught and becomes `default`; a non-null asset re-stores this
      handle under its key. */
  function ResumeLoad<T>(c: Cache<T>, id: HandleId): (r: Stepped<T>)
    requires Valid(c) && Settled(c, id)
    ensures Valid(r.cache) && Extends(c, r.cache) && r.cache.handles == c.handles
    ensures r.call.Returned?
    ensures r.call.result.Some? <==> c.handles[id].status.Loaded? && c.handles[id].status.asset.Some?
    ensures r.call.result.Some? ==>
      var key := c.handles[id].location.primaryKey;
      && r.call.result == c.handles[id].status.asset
      && r.cache.dict.Keys == c.dict.Keys + {key}
      && r.cache.dict[key] == id
      && (forall k :: k in c.dict && k != key ==> r.cache.dict[k] == c.dict[k])
    // a null asset or a fault leaves the dictionary as it is, so the faulted handle stays
    ensures r.call.result.None? ==> r.cache == c
    // only a fault is caught and logged; a null asset is returned silently
    ensures r.logged <==> c.handles[id].status.Faulted?
  {
    var h := c.handles[id];
    match h.status
    case Loaded(Some(a)) => Stepped(c.(dict := c.dict[h.location.primaryKey := id]), Returned(Some(a)))
    case Loaded(None) => Stepped(c, Returned(None))
    case _ => Stepped(c, Returned(None), true)
  }

  // ---------------------------------------------------------------------------
  // Store(string)

  /** The first step of `Store(address)` exactly as written: `ContainsKey` is
      asked before the null check, and `Dictionary.ContainsKey(null)` throws
      `ArgumentNullException`, so a null address faults the returned `Task`. */
  function StoreAddressAsWritten<T>(c: Cache<T>, address: Option<string>): (r: Call<T>)
    ensures address.None? ==> r.Threw?
    ensures address.Some? ==> r == StoreAddress(c, address)
  {
    match address
    case None => Threw
    case Some(key) =>
      if key in c.dict then AwaitingEntry(c.dict[key])
      else if key == "" then Returned(None)
      else AwaitingLocations
  }

  /** The first step of `Store(address)` with the null check the code evidently
      intends: no dictionary lookup is made for a null address. */
  function StoreAddress<T>(c: Cache<T>, address: Option<string>): (r: Call<T>)
    // a stored address awaits the handle already there and issues no load
    ensures r.AwaitingEntry? <==> address.Some? && address.value in c.dict
    ensures r.AwaitingEntry? ==> r.id == c.dict[address.value]
    // a null, or an absent empty address, is `default` with nothing changed
    ensures r.Returned? <==> address.None? || (address.value !in c.dict && address.value == "")
    ensures r.Returned? ==> r.result.None?
    // only an absent non-empty address goes on to resolve its locations
    ensures r.AwaitingLocations? <==> address.Some? && address.value !in c.dict && address.value != ""
    ensures !r.Threw? && !r.AwaitingLoad?
  {
    match address
    case None => Returned(None)
    case Some(key) =>
      if key in c.dict then AwaitingEntry(c.dict[key])
      else if key == "" then Returned(None)
      else AwaitingLocations
  }

  /** Resuming `await dict[address]`: the shared handle's result, and a fault
      is rethrown because this await is outside any `try`. */
  function ResumeEntry<T>(c: Cache<T>, id: HandleId): (r: Call<T>)
    requires Settled(c, id)
    ensures r.Threw? <==> c.handles[id].status.Faulted?
    ensures r.Returned? <==> c.handles[id].status.Loaded?
    ensures r.Returned? ==> r.result == c.handles[id].status.asset
  {
    match c.handles[id].status
    case Loaded(a) => Returned(a)
    case _ => Threw
  }

  /** Resuming after location resolution (the address and reference overloads
      alike): a failed resolution is awaited outside any `try` and faults the
      call; otherwise only the first location is stored. */
  function ResumeLocations<T>(c: Cache<T>, resolution: Resolution): (r: Stepped<T>)
    requires Valid(c)
    ensures Valid(r.cache) && Extends(c, r.cache)
    ensures resolution.ResolveFailed? ==> r == Stepped(c, Threw)
    ensures resolution.Resolved? && |resolution.locations| == 0 ==> r.cache == c && r.call == Returned(None)
    ensures resolution.Resolved? && |resolution.locations| > 0 ==>
      && |r.cache.handles| == |c.handles| + 1
      && r.cache.handles[|c.handles|] == Handle(resolution.locations[0], Pending)
      && r.call == AwaitingLoad(|c.handles|)
      && r.cache.dict == c.dict[resolution.locations[0].primaryKey := |c.handles|]
    // no location at all reaches `Store(null)`, which warns
    ensures r.logged <==> resolution.Resolved? && |resolution.locations| == 0
  {
    match resolution
    case ResolveFailed => Stepped(c, Threw)
    case Resolved(locations) => StoreLocation(c, FirstOrDefault(locations))
  }

  // ---------------------------------------------------------------------------
  // Store(AssetReferenceT<T>)

  /** The first step of `Store(reference)`.  The outcome does not depend on
      the dictionary: this overload never looks for an existing handle. */
  function StoreReference<T>(c: Cache<T>, reference: Option<AssetKey>): (r: Stepped<T>)
    ensures r.cache == c
    ensures r.call.AwaitingLocations? <==> reference.Some? && reference.value.runtimeKeyValid
    ensures !r.call.AwaitingLocations? ==> r.call == Returned(None)
  {
    if reference.Some? && reference.value.runtimeKeyValid then Stepped(c, AwaitingLocations)
    else Stepped(c, Returned(None))
  }

  // ---------------------------------------------------------------------------
  // Store(AssetLabelReference)

  /** Where a label `Store` call is suspended, or how it ended. */
  datatype Batch<T> =
    | InvalidLabel                     // the assertion fails and the result is a null list
    | AwaitingLabelLocations
    | LabelThrew                       // the location resolution faulted, and the call with it
    | AwaitingAll(ids: seq<HandleId>, pending: set<nat>, found: seq<T>)
    | Collected(assets: seq<T>)

  /** A step of `Store(label)`; `logged` as for `Stepped`. */
  datatype BatchStepped<T> = BatchStepped(cache: Cache<T>, batch: Batch<T>, logged: bool := false)

  /** The first step of `Store(labelReference)`; like the reference overload it ignores the dictionary. */
  function StoreLabel<T>(c: Cache<T>, labelRef: Option<AssetKey>): (r: BatchStepped<T>)
    ensures r.cache == c
    ensures r.batch.AwaitingLabelLocations? <==> labelRef.Some? && labelRef.value.runtimeKeyValid
    ensures !r.batch.AwaitingLabelLocations? ==> r.batch.InvalidLabel?
  {
    if labelRef.Some? && labelRef.value.runtimeKeyValid then BatchStepped(c, AwaitingLabelLocations)
    else BatchStepped(c, InvalidLabel)
  }

  /** The non-null asset a handle holds, as a sequence of length at most one. */
  function AssetOf<T>(h: Handle<T>): seq<T> {
    if h.status.Loaded? && h.status.asset.Some? then [h.status.asset.value] else []
  }

  /** The non-null asset handle `id` holds, if any. */
  function AssetAt<T>(handles: seq<Handle<T>>, id: HandleId): seq<T> {
    if id < |handles| then AssetOf(handles[id]) else []
  }

  /** What each member of a batch contributes: the non-null asset its handle holds. */
  function Members<T>(handles: seq<Handle<T>>, ids: seq<HandleId>): (ms: seq<seq<T>>)
    ensures |ms| == |ids| && forall j :: 0 <= j < |ids| ==> ms[j] == AssetAt(handles, ids[j])
  {
    seq(|ids|, j requires 0 <= j < |ids| => AssetAt(handles, ids[j]))
  }

  /** The non-null assets the handles `ids` loaded, in order: what a label store should collect. */
  function LoadedAssets<T>(handles: seq<Handle<T>>, ids: seq<HandleId>): seq<T> {
    Flatten(Members(handles, ids))
  }

  /** `Store(loc)` for every location in order, before any of them is awaited. */
  function IssueAll<T>(c: Cache<T>, locations: seq<Location>): (r: Cache<T>)
    requires Valid(c)
    ensures Valid(r) && Extends(c, r)
    ensures IssuedAll(c, r, locations)
    decreases |locations|
  {
    if |locations| == 0 then c
    else
      var n := |locations| - 1;
      var p := IssueAll(c, locations[..n]);
      IssueNext(c, p, locations);
      StoreLocation(p, Some(locations[n])).cache
  }

  /** `r` holds, after the handles of `c`, one pending load per location, in
      order; each location's key now names one of these new loads, whatever it
      named before, and every other address keeps its handle. */
  ghost predicate IssuedAll<T>(c: Cache<T>, r: Cache<T>, locations: seq<Location>) {
    IssuedLoads(c, r, locations) && KeysRenamed(c, r, locations) && OthersKept(c, r, locations)
  }

  ghost predicate IssuedLoads<T>(c: Cache<T>, r: Cache<T>, locations: seq<Location>) {
    && |r.handles| == |c.handles| + |locations|
    && forall i :: 0 <= i < |locations| ==> r.handles[|c.handles| + i] == Handle(locations[i], Pending)
  }

  ghost predicate KeysRenamed<T>(c: Cache<T>, r: Cache<T>, locations: seq<Location>) {
    forall i :: 0 <= i < |locations| ==>
      locations[i].primaryKey in r.dict && |c.handles| <= r.dict[locations[i].primaryKey]
  }

  ghost predicate OthersKept<T>(c: Cache<T>, r: Cache<T>, locations: seq<Location>) {
    forall k :: k in c.dict && (forall i :: 0 <= i < |locations| ==> locations[i].primaryKey != k) ==>
      k in r.dict && r.dict[k] == c.dict[k]
  }

  /** Issuing the last location extends what issuing the others did. */
  lemma IssueNext<T>(c: Cache<T>, p: Cache<T>, locations: seq<Location>)
    requires |locations| > 0
    requires Valid(p) && Extends(c, p) && IssuedAll(c, p, locations[..|locations| - 1])
    ensures var r := StoreLocation(p, Some(locations[|locations| - 1])).cache;
      Extends(c, r) && IssuedAll(c, r, locations)
  {
    var n := |locations| - 1;
    var s := StoreLocation(p, Some(locations[n]));
    ExtendsTransitive(c, p, s.cache);
    IssueNextLoads(c, p, s.cache, locations);
    IssueNextKeys(c, p, s.cache, locations);
    IssueNextOthers(c, p, s.cache, locations);
  }

  lemma IssueNextLoads<T>(c: Cache<T>, p: Cache<T>, r: Cache<T>, locations: seq<Location>)
    requires |locations| > 0 && IssuedLoads(c, p, locations[..|locations| - 1])
    requires r.handles == p.handles[..] + [Handle(locations[|locations| - 1], Pending)]
    ensures IssuedLoads(c, r, locations)
  {
    var n := |locations| - 1;
    forall i | 0 <= i < n
      ensures r.handles[|c.handles| + i] == Handle(locations[i], Pending)
    {
      assert locations[..n][i] == locations[i];
    }
  }

  lemma IssueNextKeys<T>(c: Cache<T>, p: Cache<T>, r: Cache<T>, locations: seq<Location>)
    requires |locations| > 0 && KeysRenamed(c, p, locations[..|locations| - 1])
    requires |c.handles| <= |p.handles|
    requires r.dict == p.dict[locations[|locations| - 1].primaryKey := |p.handles|]
    ensures KeysRenamed(c, r, locations)
  {
    var n := |locations| - 1;
    forall i | 0 <= i < n
      ensures locations[i].primaryKey in r.dict && |c.handles| <= r.dict[locations[i].primaryKey]
    {
      assert locations[..n][i] == locations[i];
    }
  }

  lemma IssueNextOthers<T>(c: Cache<T>, p: Cache<T>, r: Cache<T>, locations: seq<Location>)
    requires |locations| > 0 && OthersKept(c, p, locations[..|locations| - 1])
    requires r.dict == p.dict[locations[|locations| - 1].primaryKey := |p.handles|]
    ensures OthersKept(c, r, locations)
  {
    var n := |locations| - 1;
    forall k | k in c.dict && (forall i :: 0 <= i < |locations| ==> locations[i].primaryKey != k)
      ensures k in r.dict && r.dict[k] == c.dict[k]
    {
      assert forall i :: 0 <= i < n ==> locations[..n][i] == locations[i];
      assert locations[n].primaryKey != k;
    }
  }

  /** The indices `0 .. n-1`. */
  function Indices(n: nat): (r: set<nat>)
    ensures forall i: nat :: i in r <==> i < n
  {
    if n == 0 then {} else Indices(n - 1) + {n - 1}
  }

  /** The member ids of a batch issued when the log had length `start`. */
  function Range(start: nat, n: nat): (ids: seq<HandleId>)
    ensures |ids| == n && forall i :: 0 <= i < n ==> ids[i] == start + i
  {
    seq(n, i requires 0 <= i < n => start + i)
  }

  /** A suspended label store has collected exactly the non-null assets of its settled, resumed members. */
  ghost predicate BatchInv<T>(c: Cache<T>, b: Batch<T>) {
    b.AwaitingAll? ==>
      && (forall i :: 0 <= i < |b.ids| ==> b.ids[i] < |c.handles|)
      && (forall j :: j in b.pending ==> j < |b.ids|)
      && (forall j :: 0 <= j < |b.ids| && j !in b.pending ==> Settled(c, b.ids[j]))
      && multiset(b.found) == Harvest(Members(c.handles, b.ids), b.pending, |b.ids|)
  }

  /** Steps of other calls cannot change what a settled member contributes. */
  lemma SettledMembersStable<T>(c: Cache<T>, c': Cache<T>, ids: seq<HandleId>, pending: set<nat>)
    requires Extends(c, c')
    requires forall j :: 0 <= j < |ids| && j !in pending ==> Settled(c, ids[j])
    ensures forall j :: 0 <= j < |ids| && j !in pending ==> Members(c'.handles, ids)[j] == Members(c.handles, ids)[j]
  {
    forall j | 0 <= j < |ids| && j !in pending
      ensures Members(c'.handles, ids)[j] == Members(c.handles, ids)[j]
    {
      assert c'.handles[ids[j]].status == c.handles[ids[j]].status;
    }
  }

  /** Resuming after the label's locations resolved: one load per location,
      then all are awaited.  A failed resolution faults the call, issuing nothing. */
  function ResumeLabelLocations<T>(c: Cache<T>, resolution: Resolution): (r: BatchStepped<T>)
    requires Valid(c)
    ensures Valid(r.cache) && Extends(c, r.cache) && BatchInv(r.cache, r.batch)
    ensures resolution.ResolveFailed? ==> r == BatchStepped(c, LabelThrew)
    ensures resolution.Resolved? ==> IssuedAll(c, r.cache, resolution.locations)
    ensures resolution.Resolved? ==>
      var locations := resolution.locations;
      && r.batch.AwaitingAll? && r.batch.found == [] && |r.batch.ids| == |locations|
      && |r.cache.handles| == |c.handles| + |locations|
      && forall i :: 0 <= i < |locations| ==>
           && r.batch.ids[i] == |c.handles| + i
           && r.cache.handles[r.batch.ids[i]] == Handle(locations[i], Pending)
           && i in r.batch.pending
  {
    match resolution
    case ResolveFailed => BatchStepped(c, LabelThrew)
    case Resolved(locations) => IssueBatch(c, locations)
  }

  /** The label's loads issued and awaited, one per location. */
  function IssueBatch<T>(c: Cache<T>, locations: seq<Location>): (r: BatchStepped<T>)
    requires Valid(c)
    ensures Valid(r.cache) && Extends(c, r.cache) && BatchInv(r.cache, r.batch)
    ensures IssuedAll(c, r.cache, locations)
    ensures r.batch.AwaitingAll? && r.batch.found == [] && |r.batch.ids| == |locations|
    ensures |r.cache.handles| == |c.handles| + |locations|
    ensures forall i :: 0 <= i < |locations| ==>
      && r.batch.ids[i] == |c.handles| + i
      && r.cache.handles[r.batch.ids[i]] == Handle(locations[i], Pending)
      && i in r.batch.pending
  {
    var c' := IssueAll(c, locations);
    var ids := Range(|c.handles|, |locations|);
    var pending := Indices(|locations|);
    assert IssuedAll(c, c', locations);
    FreshBatch(c', ids, pending);
    BatchStepped(c', AwaitingAll(ids, pending, []))
  }

  /** A batch whose every member is pending has collected nothing. */
  lemma FreshBatch<T>(c: Cache<T>, ids: seq<HandleId>, pending: set<nat>)
    requires forall i :: 0 <= i < |ids| ==> ids[i] < |c.handles|
    requires forall j: nat :: j in pending <==> j < |ids|
    ensures BatchInv(c, AwaitingAll(ids, pending, []))
  {
    HarvestAllPending(Members(c.handles, ids), pending, |ids|);
  }

  /** Member `j`'s `Store(loc)` resumes on its settled handle, and `.Then` adds a non-null asset to the list. */
  function ResumeMember<T>(c: Cache<T>, b: Batch<T>, j: nat): (r: BatchStepped<T>)
    requires Valid(c) && BatchInv(c, b) && b.AwaitingAll? && j in b.pending && Settled(c, b.ids[j])
    ensures Valid(r.cache) && Extends(c, r.cache) && r.cache.handles == c.handles
    ensures BatchInv(r.cache, r.batch)
    ensures r.batch == b.(pending := b.pending - {j}, found := b.found + AssetOf(c.handles[b.ids[j]]))
    // the member's own `catch` logs a failed load before `.Then` sees `default`
    ensures r.logged <==> c.handles[b.ids[j]].status.Faulted?
  {
    var s := ResumeLoad(c, b.ids[j]);
    var found := if s.call.result.Some? then b.found + [s.call.result.value] else b.found;
    assert found == b.found + AssetOf(c.handles[b.ids[j]]);
    SettledMembersStable(c, s.cache, b.ids, b.pending - {j});
    HarvestAgree(Members(s.cache.handles, b.ids), Members(c.handles, b.ids), b.pending - {j}, b.pending - {j}, |b.ids|);
    HarvestComplete(Members(c.handles, b.ids), b.pending, j, |b.ids|);
    BatchStepped(s.cache, b.(pending := b.pending - {j}, found := found), s.logged)
  }

  /** A batch survives any step of any other call. */
  lemma BatchStable<T>(c: Cache<T>, c': Cache<T>, b: Batch<T>)
    requires BatchInv(c, b) && Extends(c, c')
    ensures BatchInv(c', b)
  {
    if b.AwaitingAll? {
      SettledMembersStable(c, c', b.ids, b.pending);
      HarvestAgree(Members(c'.handles, b.ids), Members(c.handles, b.ids), b.pending, b.pending, |b.ids|);
    }
  }

  /** `await Task.WhenAll` returns once no member is pending: the list holds
      exactly the non-null assets of the label's loads, in completion order. */
  function FinishBatch<T>(c: Cache<T>, b: Batch<T>): (r: Batch<T>)
    requires BatchInv(c, b) && b.AwaitingAll? && b.pending == {}
    ensures r.Collected?
    ensures forall i :: 0 <= i < |b.ids| ==> Settled(c, b.ids[i])
    ensures multiset(r.assets) == multiset(LoadedAssets(c.handles, b.ids))
  {
    var ms := Members(c.handles, b.ids);
    HarvestNonePending(ms, |ms|);
    assert ms[..|ms|] == ms;
    Collected(b.found)
  }

  // ---------------------------------------------------------------------------
  // Get(string)

  /** What `Get(address)` produces. */
  datatype Lookup<T> =
    | Found(asset: Option<T>)   // a done handle's result
    | NotDone                   // the "not loaded yet" assertion fails on a pending handle
    | Rethrown                  // reading a faulted handle's result throws
    | Unknown                   // the "cannot find" assertion fails; the result is `default`
    | NullKey                   // `TryGetValue(null)` throws
    | Default                   // `default`, with no assertion

  function Get<T>(c: Cache<T>, address: Option<string>): (r: Lookup<T>)
    requires Valid(c)
    ensures r.NullKey? <==> address.None?
    ensures r.Unknown? <==> address.Some? && address.value !in c.dict
    ensures address.Some? && address.value in c.dict ==>
      var st := c.handles[c.dict[address.value]].status;
      && (r.Found? <==> st.Loaded?)
      && (r.Found? ==> r.asset == st.asset)
      && (r.NotDone? <==> st.Pending?)
      && (r.Rethrown? <==> st.Faulted?)
    ensures !r.Default?
  {
    match address
    case None => NullKey
    case Some(key) =>
      if key in c.dict then
        match c.handles[c.dict[key]].status
        case Loaded(a) => Found(a)
        case Pending => NotDone
        case Faulted => Rethrown
      else Unknown
  }

  /** The address `Get(reference)` looks up once the reference's locations
      have resolved: the first location's primary key, or `"(null)"` when there is none. */
  const NoLocationAddress := "(null)"

  /** `Get(reference)`: `peek` is the location handle's outcome when that
      handle is valid and done, and `None` otherwise; it never waits. */
  function GetByReference<T>(c: Cache<T>, reference: Option<AssetKey>, peek: Option<Resolution>): (r: Lookup<T>)
    requires Valid(c)
    // a null or invalid reference, or locations not resolved yet: `default`
    ensures !(reference.Some? && reference.value.runtimeKeyValid && peek.Some?) ==> r.Default?
    // a done but failed resolution: reading its result throws
    ensures reference.Some? && reference.value.runtimeKeyValid && peek == Some(ResolveFailed) ==> r.Rethrown?
    // otherwise exactly `Get` of the first location's key, or of "(null)"; never a null key
    ensures reference.Some? && reference.value.runtimeKeyValid && peek.Some? && peek.value.Resolved? ==>
      var locations := peek.value.locations;
      var key := if |locations| > 0 then locations[0].primaryKey else NoLocationAddress;
      && r == Get(c, Some(key))
      && !r.NullKey? && !r.Default?
  {
    if reference.Some? && reference.value.runtimeKeyValid && peek.Some? then
      match peek.value
      case ResolveFailed => Rethrown
      case Resolved(locations) =>
        var key := match FirstOrDefault(locations)
          case Some(loc) => loc.primaryKey
          case None => NoLocationAddress;
        Get(c, Some(key))
    else Default
  }

  // ---------------------------------------------------------------------------
  // Dispose

  /** One `Addressables.Release` of a dictionary entry's handle. */
  datatype Release = Release(key: string, id: HandleId)

  function ReleasedKeys(released: seq<Release>): (keys: set<string>)
    ensures forall i :: 0 <= i < |released| ==> released[i].key in keys
  {
    if |released| == 0 then {}
    else ReleasedKeys(released[..|released| - 1]) + {released[|released| - 1].key}
  }

  /** Every released key was released by some element. */
  lemma {:induction false} ReleasedKeysWitness(released: seq<Release>, k: string)
    requires k in ReleasedKeys(released)
    ensures exists i :: 0 <= i < |released| && released[i].key == k
  {
    var n := |released| - 1;
    if released[n].key != k {
      ReleasedKeysWitness(released[..n], k);
      var i :| 0 <= i < n && released[..n][i].key == k;
      assert released[i] == released[..n][i];
    }
  }

  /** `released` releases every dictionary entry's handle exactly once, and nothing else. */
  ghost predicate ReleasesEachEntryOnce<T>(c: Cache<T>, released: seq<Release>) {
    && (forall i :: 0 <= i < |released| ==> released[i].key in c.dict && c.dict[released[i].key] == released[i].id)
    && (forall i, j :: 0 <= i < j < |released| ==> released[i].key != released[j].key)
    && ReleasedKeys(released) == c.dict.Keys
  }

  /** `Dispose`: the dictionary is enumerated in an unspecified order. */
  method Dispose<T>(c: Cache<T>) returns (released: seq<Release>)
    requires Valid(c)
    ensures ReleasesEachEntryOnce(c, released)
    ensures forall i, j :: 0 <= i < j < |released| ==> released[i].id != released[j].id
  {
    released := [];
    var rest := c.dict.Keys;
    while rest != {}
      invariant rest <= c.dict.Keys
      invariant forall i :: 0 <= i < |released| ==>
        released[i].key in c.dict && released[i].key !in rest && c.dict[released[i].key] == released[i].id
      invariant forall i, j :: 0 <= i < j < |released| ==> released[i].key != released[j].key
      invariant ReleasedKeys(released) == c.dict.Keys - rest
      decreases rest
    {
      var k :| k in rest;
      var before := released;
      released := released + [Release(k, c.dict[k])];
      assert released[..|released| - 1] == before;
      rest := rest - {k};
    }
  }
}

=== FILE: harvest.dfy ===
/**
 * Collecting contributions in any order.  `ms[j]` is what member `j` of a
 * batch adds when it completes (at most one asset); `pending` holds the
 * members that have not completed yet.  The harvest is the multiset of what
 * the completed members added, however their completions were ordered.
 */
module Harvests {

  /** The contributions of all members of `ms`, in member order. */
  function Flatten<T>(ms: seq<seq<T>>): seq<T> {
    if |ms| == 0 then [] else Flatten(ms[..|ms| - 1]) + ms[|ms| - 1]
  }

  /** What the completed members below `n` have added. */
  ghost function Harvest<T>(ms: seq<seq<T>>, pending: set<nat>, n: nat): multiset<T>
    requires n <= |ms|
  {
    if n == 0 then multiset{}
    else Harvest(ms, pending, n - 1) + (if n - 1 in pending then multiset{} else multiset(ms[n - 1]))
  }

  lemma {:induction false} HarvestAllPending<T>(ms: seq<seq<T>>, pending: set<nat>, n: nat)
    requires n <= |ms| && forall j :: 0 <= j < n ==> j in pending
    ensures Harvest(ms, pending, n) == multiset{}
  {
    if n > 0 {
      HarvestAllPending(ms, pending, n - 1);
    }
  }

  /** With nothing pending, the harvest is everything the members contribute. */
  lemma {:induction false} HarvestNonePending<T>(ms: seq<seq<T>>, n: nat)
    requires n <= |ms|
    ensures Harvest(ms, {}, n) == multiset(Flatten(ms[..n]))
  {
    if n > 0 {
      HarvestNonePending(ms, n - 1);
      assert ms[..n][..n - 1] == ms[..n - 1];
      assert Flatten(ms[..n]) == Flatten(ms[..n - 1]) + ms[n - 1];
    }
  }

  /** Two batches that agree on every completed member have the same harvest. */
  lemma {:induction false} HarvestAgree<T>(ms: seq<seq<T>>, ms': seq<seq<T>>, p: set<nat>, q: set<nat>, n: nat)
    requires n <= |ms| && n <= |ms'|
    requires forall j :: 0 <= j < n ==> (j in p <==> j in q)
    requires forall j :: 0 <= j < n && j !in p ==> ms[j] == ms'[j]
    ensures Harvest(ms, p, n) == Harvest(ms', q, n)
  {
    if n > 0 {
      HarvestAgree(ms, ms', p, q, n - 1);
    }
  }

  /** Completing member `j` adds exactly its contribution. */
  lemma {:induction false} HarvestComplete<T>(ms: seq<seq<T>>, pending: set<nat>, j: nat, n: nat)
    requires n <= |ms| && j in pending && j < n
    ensures Harvest(ms, pending - {j}, n) == Harvest(ms, pending, n) + multiset(ms[j])
  {
    var q := pending - {j};
    if n - 1 == j {
      HarvestAgree(ms, ms, pending, q, n - 1);
      assert Harvest(ms, pending, n) == Harvest(ms, pending, n - 1);
      assert Harvest(ms, q, n) == Harvest(ms, q, n - 1) + multiset(ms[j]);
    } else {
      HarvestComplete(ms, pending, j, n - 1);
      var y := if n - 1 in pending then multiset{} else multiset(ms[n - 1]);
      var h := Harvest(ms, pending, n - 1);
      assert Harvest(ms, q, n - 1) == h + multiset(ms[j]);
      assert Harvest(ms, pending, n) == h + y;
      assert (n - 1 in q) == (n - 1 in pending);
      assert Harvest(ms, q, n) == Harvest(ms, q, n - 1) + y;
      MultisetSwap(h, multiset(ms[j]), y);
    }
  }

  lemma MultisetSwap<T>(h: multiset<T>, x: multiset<T>, y: multiset<T>)
    ensures (h + x) + y == (h + y) + x
  {
  }
}

=== FILE: resource_manager.dfy ===
/**
 * The bookkeeping of `ResourceManager`: the set `_loadings` of operations
 * being tracked by `trackLoadingStatus`, with `emptyLoadQueue`, and the
 * run-once guard `_initTask` of `PrepareLoading`.  As in `AssetCache`, each
 * async method is split at its awaits, and the awaited operation's outcome is
 * a parameter of the step that resumes.
 */
module ResourceManager {
  import opened Wrappers

  type TaskId = nat

  // ---------------------------------------------------------------------------
  // trackLoadingStatus / emptyLoadQueue

  /** `_loadings`: the operations being tracked. */
  datatype Tracker = Tracker(loadings: set<TaskId>)

  /** `emptyLoadQueue`: no operation is being tracked. */
  function EmptyLoadQueue(t: Tracker): (r: bool)
    ensures r <==> t.loadings == {}
  {
    |t.loadings| == 0
  }

  /** A suspended `trackLoadingStatus` call: the operation it awaits and whether `Add` returned true for it. */
  datatype Tracking = Tracking(op: TaskId, added: bool)

  /** How a tracked operation settled. */
  datatype Completion<T> = Completed(value: Option<T>) | Faulted

  datatype Begun = Begun(tracker: Tracker, frame: Tracking)

  datatype Ended<T> = Ended(tracker: Tracker, result: Option<T>, loggedError: bool)

  /** Up to the await: the operation is added to `_loadings`, and the call
      remembers whether it was the one that added it. */
  function TrackBegin(t: Tracker, op: TaskId): (r: Begun)
    ensures r.frame.op == op
    ensures r.frame.added <==> op !in t.loadings
    ensures r.tracker.loadings == t.loadings + {op}
    ensures !EmptyLoadQueue(r.tracker)
  {
    Begun(Tracker(t.loadings + {op}), Tracking(op, op !in t.loadings))
  }

  /** After the operation settled: a fault is logged and becomes `default`,
      and `finally` removes the operation only if this call added it. */
  function TrackEnd<T>(t: Tracker, f: Tracking, outcome: Completion<T>): (r: Ended<T>)
    ensures f.added ==> r.tracker.loadings == t.loadings - {f.op}
    ensures !f.added ==> r.tracker == t
    ensures outcome.Completed? ==> r.result == outcome.value && !r.loggedError
    ensures outcome.Faulted? ==> r.result == None && r.loggedError
  {
    var t' := if f.added then Tracker(t.loadings - {f.op}) else t;
    match outcome
    case Completed(v) => Ended(t', v, false)
    case Faulted => Ended(t', None, true)
  }

  /** The operations of the suspended calls that added theirs. */
  ghost function AddedOps(frames: seq<Tracking>): set<TaskId> {
    set i | 0 <= i < |frames| && frames[i].added :: frames[i].op
  }

  /** `_loadings` is exactly the set of operations added by calls still
      suspended, and no two such calls added the same operation. */
  ghost predicate Accounted(t: Tracker, frames: seq<Tracking>) {
    && t.loadings == AddedOps(frames)
    && forall i, j :: 0 <= i < |frames| && 0 <= j < |frames| && i != j && frames[i].added && frames[j].added
         ==> frames[i].op != frames[j].op
  }

  lemma BeginKeepsAccounted(t: Tracker, frames: seq<Tracking>, op: TaskId)
    requires Accounted(t, frames)
    ensures Accounted(TrackBegin(t, op).tracker, frames + [TrackBegin(t, op).frame])
  {
    var b := TrackBegin(t, op);
    var frames' := frames + [b.frame];
    assert forall i :: 0 <= i < |frames| ==> frames'[i] == frames[i];
    assert frames'[|frames|] == b.frame;
    forall o | o in AddedOps(frames')
      ensures o in AddedOps(frames) || (b.frame.added && o == op)
    {
      var j :| 0 <= j < |frames'| && frames'[j].added && frames'[j].op == o;
      if j < |frames| {
        assert frames[j].added && frames[j].op == o;
      }
    }
    forall o | o in AddedOps(frames) ensures o in AddedOps(frames') {
      var j :| 0 <= j < |frames| && frames[j].added && frames[j].op == o;
      assert frames'[j] == frames[j];
    }
    if b.frame.added {
      assert op in AddedOps(frames');
      forall j | 0 <= j < |frames| && frames[j].added ensures frames[j].op != op {
        assert frames[j].op in AddedOps(frames);
      }
    }
    assert b.tracker.loadings == AddedOps(frames');
  }

  lemma EndKeepsAccounted<T>(t: Tracker, frames: seq<Tracking>, i: nat, outcome: Completion<T>)
    requires Accounted(t, frames) && i < |frames|
    ensures Accounted(TrackEnd(t, frames[i], outcome).tracker, frames[..i] + frames[i + 1..])
  {
    var f := frames[i];
    var frames' := frames[..i] + frames[i + 1..];
    assert forall j :: 0 <= j < i ==> frames'[j] == frames[j];
    assert forall j :: i <= j < |frames'| ==> frames'[j] == frames[j + 1];
    forall o | o in AddedOps(frames')
      ensures o in AddedOps(frames) && (f.added ==> o != f.op)
    {
      var j :| 0 <= j < |frames'| && frames'[j].added && frames'[j].op == o;
      var k := if j < i then j else j + 1;
      assert frames[k] == frames'[j];
    }
    forall o | o in AddedOps(frames) && !(f.added && o == f.op)
      ensures o in AddedOps(frames')
    {
      var k :| 0 <= k < |frames| && frames[k].added && frames[k].op == o;
      assert k != i;
      var j := if k < i then k else k - 1;
      assert frames'[j] == frames[k];
    }
  }

  /** `emptyLoadQueue` holds exactly when no suspended call added its operation. */
  lemma EmptyExactlyWhenNoneAdded(t: Tracker, frames: seq<Tracking>)
    requires Accounted(t, frames)
    ensures EmptyLoadQueue(t) <==> forall i :: 0 <= i < |frames| ==> !frames[i].added
  {
    if exists i :: 0 <= i < |frames| && frames[i].added {
      var i :| 0 <= i < |frames| && frames[i].added;
      assert frames[i].op in t.loadings;
    }
  }

  /** Each `LoadX` call passes a task no suspended call tracks, so its call is
      the one that adds it, and the operation stays in `_loadings` until that
      call resumes. */
  lemma FreshOperationIsAdded(t: Tracker, frames: seq<Tracking>, op: TaskId)
    requires Accounted(t, frames)
    requires forall i :: 0 <= i < |frames| ==> frames[i].op != op
    ensures TrackBegin(t, op).frame.added
  {
  }

  // ---------------------------------------------------------------------------
  // PrepareLoading

  /** `_initTask`: not yet created, created and not completed, or completed. */
  datatype InitTask = NoTask | Initializing | Initialized

  /** The guard, with the number of `InitializeAsync` calls ever made. */
  datatype Init = Init(task: InitTask, initializeCalls: nat)

  /** Where a `PrepareLoading` call is suspended, or how it ended. */
  datatype Preparing =
    | AwaitingInitialize   // the first caller, awaiting InitializeAsync
    | AwaitingShared       // a later caller, awaiting `_initTask.Task`
    | Prepared
    | PrepareThrew

  datatype PrepareStep = PrepareStep(init: Init, call: Preparing)

  /** Up to the first await: only a caller finding no task calls
      `InitializeAsync`, and it creates `_initTask` before awaiting. */
  function PrepareBegin(s: Init): (r: PrepareStep)
    ensures r.call.AwaitingInitialize? <==> s.task.NoTask?
    ensures s.task.NoTask? ==> r.init == Init(Initializing, s.initializeCalls + 1)
    ensures !s.task.NoTask? ==> r.init == s && r.call == AwaitingShared
  {
    if s.task.NoTask? then PrepareStep(Init(Initializing, s.initializeCalls + 1), AwaitingInitialize)
    else PrepareStep(s, AwaitingShared)
  }

  /** The first caller resumes: success completes the shared task; a fault
      propagates to that caller alone and the shared task never completes. */
  function InitializeFinished(s: Init, succeeded: bool): (r: PrepareStep)
    requires s.task.Initializing?
    ensures succeeded ==> r.init == s.(task := Initialized) && r.call == Prepared
    ensures !succeeded ==> r.init == s && r.call == PrepareThrew
  {
    if succeeded then PrepareStep(s.(task := Initialized), Prepared) else PrepareStep(s, PrepareThrew)
  }

  /** Something that can happen to the callers of `PrepareLoading`. */
  datatype PrepareEvent =
    | Call                              // a new caller enters
    | InitializeReturned(caller: nat, succeeded: bool)   // the first caller's InitializeAsync settles
    | Wake(caller: nat)                 // `_initTask.Task` completes for a waiting caller

  datatype Prep = Prep(init: Init, callers: seq<Preparing>)

  /** One event; an event that cannot happen in state `p` leaves it unchanged. */
  function StepPrepare(p: Prep, e: PrepareEvent): Prep {
    match e
    case Call =>
      var r := PrepareBegin(p.init);
      Prep(r.init, p.callers + [r.call])
    case InitializeReturned(i, ok) =>
      if i < |p.callers| && p.callers[i].AwaitingInitialize? && p.init.task.Initializing? then
        var r := InitializeFinished(p.init, ok);
        Prep(r.init, p.callers[i := r.call])
      else p
    case Wake(i) =>
      if i < |p.callers| && p.callers[i].AwaitingShared? && p.init.task.Initialized? then
        Prep(p.init, p.callers[i := Prepared])
      else p
  }

  function RunPrepare(p: Prep, events: seq<PrepareEvent>): Prep
    decreases |events|
  {
    if |events| == 0 then p else RunPrepare(StepPrepare(p, events[0]), events[1..])
  }

  /** `InitializeAsync` was called at most once, by the one caller that found
      no task; no caller has finished before the shared task completed,
      except that first caller when initialization threw. */
  ghost predicate PrepareInv(p: Prep) {
    && p.init.initializeCalls == (if p.init.task.NoTask? then 0 else 1)
    && (p.init.task.NoTask? <==> |p.callers| == 0)
    && (forall i, j :: 0 <= i < |p.callers| && 0 <= j < |p.callers| ==>
          (Initializer(p.callers[i]) && Initializer(p.callers[j]) ==> i == j))
    && (forall i :: 0 <= i < |p.callers| && Initializer(p.callers[i]) ==> p.init.task.Initializing?)
    && (forall i :: 0 <= i < |p.callers| && p.callers[i].Prepared? ==> p.init.task.Initialized?)
  }

  /** The caller that ran `InitializeAsync` and has not returned, or whose initialization threw. */
  predicate Initializer(c: Preparing) {
    c.AwaitingInitialize? || c.PrepareThrew?
  }

  lemma StepKeepsPrepareInv(p: Prep, e: PrepareEvent)
    requires PrepareInv(p)
    ensures PrepareInv(StepPrepare(p, e))
  {
  }

  /** From a fresh manager, whatever the callers and whatever the backend does:
      at most one `InitializeAsync`, and every caller that returned did so
      after it succeeded. */
  lemma {:induction false} PrepareRunsInitializeOnce(events: seq<PrepareEvent>)
    ensures var p := RunPrepare(Prep(Init(NoTask, 0), []), events);
      && PrepareInv(p)
      && p.init.initializeCalls <= 1
      && (forall i :: 0 <= i < |p.callers| && p.callers[i].Prepared? ==> p.init.task.Initialized?)
  {
    RunKeepsPrepareInv(Prep(Init(NoTask, 0), []), events);
  }

  lemma {:induction false} RunKeepsPrepareInv(p: Prep, events: seq<PrepareEvent>)
    requires PrepareInv(p)
    ensures PrepareInv(RunPrepare(p, events))
    decreases |events|
  {
    if |events| > 0 {
      StepKeepsPrepareInv(p, events[0]);
      RunKeepsPrepareInv(StepPrepare(p, events[0]), events[1..]);
    }
  }

  /** After a failed `InitializeAsync` the guard never resets: no later
      caller calls it again, and no waiting caller ever wakes. */
  lemma {:induction false} FailedInitializeIsFinal(p: Prep, events: seq<PrepareEvent>)
    requires PrepareInv(p) && p.init.task.Initializing?
    requires forall i :: 0 <= i < |p.callers| ==> !p.callers[i].AwaitingInitialize?
    ensures RunPrepare(p, events).init == p.init
    ensures var q := RunPrepare(p, events); forall i :: 0 <= i < |q.callers| ==> !q.callers[i].Prepared?
    decreases |events|
  {
    RunKeepsPrepareInv(p, events);
    if |events| > 0 {
      var q := StepPrepare(p, events[0]);
      StepKeepsPrepareInv(p, events[0]);
      assert q.init == p.init;
      assert forall i :: 0 <= i < |q.callers| ==> !q.callers[i].AwaitingInitialize?;
      FailedInitializeIsFinal(q, events[1..]);
    }
  }
}

=== FILE: root_canvas.dfy ===
/**
 * The control flow of `RootCanvas`: scene replacement around an optional
 * fade, the null-gated pushes onto the popup and overlay surfaces, and the
 * bootstrap order.  Each operation is a step function over the canvas state
 * that also emits the events it causes.  The stack primitives (`Replace`,
 * `Push`) and the transition animation are opaque events; what `Replace` and
 * `Push` return is a parameter.  Loads arrive already resolved: they come from
 * `ResourceManager.LoadPrefab`, whose tracking wrapper never faults.
 */
module RootCanvas {
  import opened Wrappers

  /** An opaque UI component (`UIScene` or a subclass of it). */
  type Component = nat

  /** An opaque scene reference (`AssetReferenceGameObject`). */
  type SceneRef = nat

  /** A loaded prefab, as seen through `GetComponent<T>()`: null when the prefab lacks the component. */
  datatype Prefab = Prefab(component: Option<Component>)

  datatype Surface = Popup | Overlay

  datatype Failure = SceneNotLoaded | NotLoaded(surface: Surface)

  datatype Event =
    | FadeIn                                         // Transition(false) starts
    | Joined                                         // the load and the fade-in have both finished
    | Replace(component: Option<Component>)          // Scene.Replace
    | Push(surface: Surface, component: Option<Component>)
    | FadeOut                                        // Transition(true), awaited
    | LogError(failure: Failure)
    | AssertFailed                                   // Debug.Assert on a missing component
    | Prepare                                        // await PrepareLoading()
    | LoadTransition                                 // await LoadPrefab of the transition prefab
    | StartScene(scene: SceneRef, transition: bool)  // SetScene, not awaited

  datatype Canvas = Canvas(currentScene: Option<Component>, transitionPrefab: Option<Prefab>)

  /** What `Scene.Replace` did: returned the component that becomes current, or threw. */
  datatype ReplaceOutcome = ReplacedWith(current: Option<Component>) | ReplaceThrew

  datatype SceneResult = SceneResult(canvas: Canvas, trace: seq<Event>, threw: bool)

  /** The events of `setSceneInternal` around `swap`, the swap or its error log. */
  function SceneTrace(transition: bool, swap: Event): seq<Event> {
    if transition then [FadeIn, Joined, swap, FadeOut] else [Joined, swap]
  }

  /** The order those events come in. */
  lemma SceneTraceOrder(transition: bool, swap: Event)
    requires swap.Replace? || swap.LogError?
    ensures var t := SceneTrace(transition, swap);
      && multiset(t)[FadeIn] == (if transition then 1 else 0)
      && multiset(t)[FadeOut] == (if transition then 1 else 0)
      && (transition ==> t[0] == FadeIn && t[|t| - 1] == FadeOut)
      && Joined in t && swap in t
      && (forall i, j :: 0 <= i < j < |t| && t[j] == Joined ==> t[i] == FadeIn)
      && (forall i, j :: 0 <= i < j < |t| && t[i] == Joined ==> t[j] != FadeIn)
      && (forall e :: e in t ==> e == swap || e == Joined || e == FadeIn || e == FadeOut)
  {
    var t := SceneTrace(transition, swap);
    if transition {
      assert t == [FadeIn] + [Joined] + [swap] + [FadeOut];
    } else {
      assert t == [Joined] + [swap];
    }
  }

  /** `setSceneInternal`, from the moment the load has been started; the
      order of its events is `SetSceneOrder`. */
  function SetSceneInternal(c: Canvas, loaded: Option<Prefab>, transition: bool, replace: ReplaceOutcome): (r: SceneResult)
    // a non-null prefab is swapped in; a null one is logged
    ensures loaded.Some? ==> Replace(loaded.value.component) in r.trace
    ensures forall e :: e in r.trace && e.Replace? ==> loaded.Some? && e.component == loaded.value.component
    ensures loaded.None? <==> LogError(SceneNotLoaded) in r.trace
    ensures forall e :: e in r.trace ==> !e.Push?
    // the current scene changes only through a `Replace` that returned
    ensures loaded.Some? && replace.ReplacedWith? ==> r.canvas.currentScene == replace.current
    ensures !(loaded.Some? && replace.ReplacedWith?) ==> r.canvas == c
    ensures r.canvas.transitionPrefab == c.transitionPrefab
    ensures r.threw <==> loaded.Some? && replace.ReplaceThrew?
  {
    var swap := if loaded.Some? then Replace(loaded.value.component) else LogError(SceneNotLoaded);
    // `finally`: the fade-out follows the swap or the error in every case
    var trace := SceneTrace(transition, swap);
    SceneTraceOrder(transition, swap);
    if loaded.Some? && replace.ReplacedWith? then SceneResult(c.(currentScene := replace.current), trace, false)
    else SceneResult(c, trace, loaded.Some?)
  }

  /** One fade-in and one fade-out exactly when a transition is asked for, the
      fade-out last whatever the load returned and even when `Replace` threw;
      nothing but the fade-in happens before the join. */
  lemma SetSceneOrder(c: Canvas, loaded: Option<Prefab>, transition: bool, replace: ReplaceOutcome)
    ensures var t := SetSceneInternal(c, loaded, transition, replace).trace;
      && multiset(t)[FadeIn] == (if transition then 1 else 0)
      && multiset(t)[FadeOut] == (if transition then 1 else 0)
      && (transition ==> t[0] == FadeIn && t[|t| - 1] == FadeOut)
      && Joined in t
      && (forall i, j :: 0 <= i < j < |t| && t[j] == Joined ==> t[i] == FadeIn)
      && (forall i, j :: 0 <= i < j < |t| && t[i] == Joined ==> t[j] != FadeIn)
  {
    var swap := if loaded.Some? then Replace(loaded.value.component) else LogError(SceneNotLoaded);
    SceneTraceOrder(transition, swap);
  }

  datatype Added = Added(result: Option<Component>, trace: seq<Event>)

  /** The continuation shared by `addPopupInternal` and `addOverlayInternal`;
      `pushed` is what `Push` returns. */
  function AddInternal(surface: Surface, loaded: Option<Prefab>, pushed: Option<Component>): (r: Added)
    ensures loaded.None? ==> r.result.None? && r.trace == [LogError(NotLoaded(surface))]
    ensures loaded.Some? ==> r.result == pushed
    ensures multiset(r.trace)[Push(surface, if loaded.Some? then loaded.value.component else None)]
            == (if loaded.Some? then 1 else 0)
    ensures forall e :: e in r.trace && e.Push? ==> e.surface == surface && loaded.Some?
    ensures AssertFailed in r.trace <==> loaded.Some? && loaded.value.component.None?
    ensures FadeIn !in r.trace && FadeOut !in r.trace && forall e :: e in r.trace ==> !e.Replace?
  {
    match loaded
    case None => Added(None, [LogError(NotLoaded(surface))])
    case Some(prefab) =>
      var checked := if prefab.component.None? then [AssertFailed] else [];
      Added(pushed, checked + [Push(surface, prefab.component)])
  }

  /** `addPopupInternal`: push onto `Popup` only for a non-null prefab. */
  function AddPopupInternal(loaded: Option<Prefab>, pushed: Option<Component>): (r: Added)
    ensures loaded.None? ==> r.result.None? && r.trace == [LogError(NotLoaded(Popup))]
    ensures loaded.Some? ==> r.result == pushed && Push(Popup, loaded.value.component) in r.trace
    ensures forall e :: e in r.trace && e.Push? ==> loaded.Some? && e == Push(Popup, loaded.value.component)
  {
    AddInternal(Popup, loaded, pushed)
  }

  /** `addOverlayInternal`: push onto `Overlay` only for a non-null prefab. */
  function AddOverlayInternal(loaded: Option<Prefab>, pushed: Option<Component>): (r: Added)
    ensures loaded.None? ==> r.result.None? && r.trace == [LogError(NotLoaded(Overlay))]
    ensures loaded.Some? ==> r.result == pushed && Push(Overlay, loaded.value.component) in r.trace
    ensures forall e :: e in r.trace && e.Push? ==> loaded.Some? && e == Push(Overlay, loaded.value.component)
  {
    AddInternal(Overlay, loaded, pushed)
  }

  /** How the awaited `PrepareLoading` ended: it returned, it rethrew a
      failed initialization, or it never resumes (a caller that finds the
      initialization already failed waits on it forever). */
  datatype PrepareOutcome = PrepareReturned | PrepareThrew | PrepareSuspended

  /** How the `Task` of `Bootup` ended: it completed, it faulted (so the
      `Catch` in `Start` logs the exception), or it is still pending. */
  datatype BootEnd = BootFinished | BootFaulted | BootPending

  datatype Booted = Booted(canvas: Canvas, trace: seq<Event>, end: BootEnd)

  /** `Bootup`: `prepare` is how `PrepareLoading` ended, and
      `transitionLoaded` is what loading the transition prefab produced.
      Only a prepare that returned reaches the transition load and the entry
      scene; the entry scene is started without a fade and not awaited. */
  function Bootup(c: Canvas, entryScene: Option<SceneRef>, prepare: PrepareOutcome, transitionLoaded: Option<Prefab>): (r: Booted)
    ensures entryScene.None? ==> r == Booted(c, [], BootFinished)
    ensures entryScene.Some? && prepare.PrepareThrew? ==> r == Booted(c, [Prepare], BootFaulted)
    ensures entryScene.Some? && prepare.PrepareSuspended? ==> r == Booted(c, [Prepare], BootPending)
    ensures entryScene.Some? && prepare.PrepareReturned? ==>
      && r.trace == [Prepare, LoadTransition, StartScene(entryScene.value, false)]
      && r.canvas == c.(transitionPrefab := transitionLoaded)
      && r.end.BootFinished?
    ensures r.end.BootFaulted? <==> entryScene.Some? && prepare.PrepareThrew?
    ensures LoadTransition in r.trace <==> entryScene.Some? && prepare.PrepareReturned?
  {
    match entryScene
    case None => Booted(c, [], BootFinished)
    case Some(scene) =>
      match prepare
      case PrepareThrew => Booted(c, [Prepare], BootFaulted)
      case PrepareSuspended => Booted(c, [Prepare], BootPending)
      case PrepareReturned =>
        Booted(c.(transitionPrefab := transitionLoaded), [Prepare, LoadTransition, StartScene(scene, false)], BootFinished)
  }

  /** A failed scene load keeps the previous scene and still fades out. */
  lemma FailedSceneLoadStillFadesOut(c: Canvas, replace: ReplaceOutcome)
    ensures SetSceneInternal(c, None, true, replace)
            == SceneResult(c, [FadeIn, Joined, LogError(SceneNotLoaded), FadeOut], false)
  {
  }

  /** A throwing `Replace` keeps the previous scene, still fades out, and faults the returned `Task`. */
  lemma ThrowingReplaceStillFadesOut(c: Canvas, prefab: Prefab)
    ensures var r := SetSceneInternal(c, Some(prefab), true, ReplaceThrew);
      && r.canvas == c && r.threw
      && r.trace == [FadeIn, Joined, Replace(prefab.component), FadeOut]
  {
  }

  /** The first scene: after `Bootup` the entry scene is set without any
      fade, because the flag is the one `Bootup` starts it with, and the scene
      swap follows prepare, then the transition load. */
  lemma FirstSceneHasNoFade(c: Canvas, scene: SceneRef, transitionLoaded: Option<Prefab>,
                            loaded: Option<Prefab>, replace: ReplaceOutcome)
    ensures
      var b := Bootup(c, Some(scene), PrepareReturned, transitionLoaded);
      var s := SetSceneInternal(b.canvas, loaded, b.trace[2].transition, replace);
      var trace := b.trace + s.trace;
      && FadeIn !in trace && FadeOut !in trace
      && trace[..3] == [Prepare, LoadTransition, StartScene(scene, false)]
      && trace[3] == Joined
      && (loaded.Some? && replace.ReplacedWith? ==> s.canvas.currentScene == replace.current)
      && s.canvas.transitionPrefab == transitionLoaded
  {
    var b := Bootup(c, Some(scene), PrepareReturned, transitionLoaded);
    SetSceneOrder(b.canvas, loaded, b.trace[2].transition, replace);
    var s := SetSceneInternal(b.canvas, loaded, b.trace[2].transition, replace);
    assert s.trace[0] == Joined;
  }
}

=== FILE: scenarios.dfy ===
/**
 * Interleavings of `AssetCache` steps that show what the dictionary does and
 * does not guarantee: when a second `Store(address)` shares the first one's
 * load, when it issues its own, and what happens to a faulted or overwritten
 * handle.
 */
module CacheScenarios {
  import opened Wrappers
  import opened AssetCache

  /** A second `Store(address)` that arrives once the first has stored its
      pending handle shares that one load: on success both callers see the
      same asset; on a fault the first caller catches it and the second one,
      awaiting outside any `try`, throws. */
  lemma SecondCallerSharesPendingLoad<T>(c: Cache<T>, k: string, locations: seq<Location>, outcome: Outcome<T>)
    requires Valid(c) && k !in c.dict && k != ""
    requires |locations| > 0 && locations[0].primaryKey == k
    ensures StoreAddress(c, Some(k)) == AwaitingLocations
    ensures
      var id := |c.handles|;
      var s1 := ResumeLocations(c, Resolved(locations));
      && s1.call == AwaitingLoad(id)
      && StoreAddress(s1.cache, Some(k)) == AwaitingEntry(id)
      && var c2 := Settle(s1.cache, id, outcome);
         var first := ResumeLoad(c2, id);
         var second := ResumeEntry(c2, id);
         && LoadCount(first.cache.handles, k) == LoadCount(c.handles, k) + 1
         && (outcome.Succeeded? ==> first.call == second == Returned(outcome.asset))
         && (outcome.Failed? ==> first.call == Returned(None) && second == Threw)
  {
    var id := |c.handles|;
    var s1 := ResumeLocations(c, Resolved(locations));
    var c2 := Settle(s1.cache, id, outcome);
    LoadCountSettle(s1.cache, id, outcome, k);
  }

  /** Settling a load does not change which loads were issued. */
  lemma LoadCountSettle<T>(c: Cache<T>, id: HandleId, outcome: Outcome<T>, k: string)
    requires Valid(c) && id < |c.handles| && c.handles[id].status.Pending?
    ensures LoadCount(Settle(c, id, outcome).handles, k) == LoadCount(c.handles, k)
  {
    SameLocationsSameCount(c.handles, Settle(c, id, outcome).handles, k);
  }

  lemma {:induction false} SameLocationsSameCount<T>(h: seq<Handle<T>>, h': seq<Handle<T>>, k: string)
    requires |h| == |h'| && forall i :: 0 <= i < |h| ==> h[i].location == h'[i].location
    ensures LoadCount(h, k) == LoadCount(h', k)
  {
    if |h| > 0 {
      SameLocationsSameCount(h[..|h| - 1], h'[..|h'| - 1], k);
    }
  }

  /** The dictionary check and the insertion are separated by the
      location-resolution await: two `Store(address)` calls that both pass the
      check before either resumes issue two loads for the same key, and right
      after the second issue its handle holds the dictionary entry (until a
      load completing with an asset re-stores its own handle). */
  lemma CheckThenInsertRace<T>(c: Cache<T>, k: string, locations: seq<Location>)
    requires Valid(c) && k !in c.dict && k != ""
    requires |locations| > 0 && locations[0].primaryKey == k
    ensures StoreAddress(c, Some(k)) == AwaitingLocations
    ensures
      var first := ResumeLocations(c, Resolved(locations));
      var second := ResumeLocations(first.cache, Resolved(locations));
      && LoadCount(second.cache.handles, k) == LoadCount(c.handles, k) + 2
      && second.cache.dict[k] == |c.handles| + 1
  {
  }

  /** Deduplication looks the caller's address up, but the handle is stored
      under the location's primary key: when the two differ, a completed
      load is never found again and the next call for the same address loads
      once more. */
  lemma MismatchedPrimaryKeyReloads<T>(c: Cache<T>, k: string, locations: seq<Location>, outcome: Outcome<T>)
    requires Valid(c) && k !in c.dict && k != ""
    requires |locations| > 0 && locations[0].primaryKey != k
    ensures
      var id := |c.handles|;
      var s1 := ResumeLocations(c, Resolved(locations));
      var s2 := ResumeLoad(Settle(s1.cache, id, outcome), id);
      && k !in s2.cache.dict
      && StoreAddress(s2.cache, Some(k)) == AwaitingLocations
  {
  }

  /** `Store(reference)` never consults the dictionary: a reference to an
      address already stored issues a fresh load and replaces the entry. */
  lemma ReferenceAlwaysReloads<T>(c: Cache<T>, reference: Option<AssetKey>, locations: seq<Location>)
    requires Valid(c) && reference.Some? && reference.value.runtimeKeyValid
    requires |locations| > 0 && locations[0].primaryKey in c.dict
    ensures StoreReference(c, reference) == Stepped(c, AwaitingLocations)
    ensures
      var k := locations[0].primaryKey;
      var s := ResumeLocations(c, Resolved(locations));
      && |s.cache.handles| == |c.handles| + 1
      && s.cache.dict[k] == |c.handles| != c.dict[k]
  {
  }

  /** `Store(label)` never consults the dictionary either: an address already
      stored that one of the label's locations names is overwritten by the
      batch's own pending load. */
  lemma LabelOverwritesEntry<T>(c: Cache<T>, locations: seq<Location>, i: nat)
    requires Valid(c) && i < |locations| && locations[i].primaryKey in c.dict
    ensures
      var k := locations[i].primaryKey;
      var r := ResumeLabelLocations(c, Resolved(locations));
      && k in r.cache.dict && r.cache.dict[k] != c.dict[k]
      && |c.handles| <= r.cache.dict[k] < |r.cache.handles|
      && r.cache.handles[r.cache.dict[k]].status.Pending?
  {
    var k := locations[i].primaryKey;
    var r := ResumeLabelLocations(c, Resolved(locations));
    assert IssuedLoads(c, r.cache, locations) && KeysRenamed(c, r.cache, locations);
    var j := r.cache.dict[k] - |c.handles|;
    assert r.cache.handles[|c.handles| + j] == Handle(locations[j], Pending);
  }

  /** A faulted handle stays in the dictionary: `Get` and every later
      `Store(address)` for the key rethrow it, and no new load is tried. */
  lemma FaultedHandleStays<T>(c: Cache<T>, k: string, locations: seq<Location>)
    requires Valid(c) && k !in c.dict && k != ""
    requires |locations| > 0 && locations[0].primaryKey == k
    ensures
      var id := |c.handles|;
      var s1 := ResumeLocations(c, Resolved(locations));
      var c2 := Settle(s1.cache, id, Failed);
      var s3 := ResumeLoad(c2, id);
      && s3.call == Returned(None)
      && k in s3.cache.dict && s3.cache.dict[k] == id
      && Get(s3.cache, Some(k)) == Rethrown
      && StoreAddress(s3.cache, Some(k)) == AwaitingEntry(id)
      && ResumeEntry(s3.cache, id) == Threw
  {
  }

  /** Once a load has completed with an asset, `Get` returns it, by address or
      by a reference whose own location lookup is already done and lists the
      same first location, and a later
      `Store(address)` for the key returns it too without a new load. */
  lemma StoredAssetIsReused<T>(c: Cache<T>, k: string, locations: seq<Location>, asset: T, reference: AssetKey)
    requires Valid(c) && k !in c.dict && k != ""
    requires |locations| > 0 && locations[0].primaryKey == k
    ensures
      var id := |c.handles|;
      var s1 := ResumeLocations(c, Resolved(locations));
      var c2 := Settle(s1.cache, id, Succeeded(Some(asset)));
      var s3 := ResumeLoad(c2, id);
      && s3.call == Returned(Some(asset))
      && Get(s3.cache, Some(k)) == Found(Some(asset))
      && (reference.runtimeKeyValid ==> GetByReference(s3.cache, Some(reference), Some(Resolved(locations))) == Found(Some(asset)))
      && StoreAddress(s3.cache, Some(k)) == AwaitingEntry(id)
      && ResumeEntry(s3.cache, id) == Returned(Some(asset))
      && |s3.cache.handles| == |c.handles| + 1
  {
  }

  /** `Dispose` releases dictionary entries only, so a `Dispose` that runs
      right after a later `Store(location)` for the same key replaced a handle
      does not release the replaced one. */
  lemma OverwrittenHandleNeverReleased<T>(c: Cache<T>, location: Location)
    requires Valid(c)
    ensures
      var s1 := StoreLocation(c, Some(location));
      var s2 := StoreLocation(s1.cache, Some(location));
      forall released: seq<Release> :: ReleasesEachEntryOnce(s2.cache, released) ==>
        forall i :: 0 <= i < |released| ==> released[i].id != |c.handles|
  {
    var s1 := StoreLocation(c, Some(location));
    var s2 := StoreLocation(s1.cache, Some(location));
    forall released: seq<Release>, i | ReleasesEachEntryOnce(s2.cache, released) && 0 <= i < |released|
      ensures released[i].id != |c.handles|
    {
      var k := released[i].key;
      assert k in s2.cache.dict;
      if k == location.primaryKey {
        assert s2.cache.dict[k] == |c.handles| + 1;
      } else {
        assert s2.cache.dict[k] == c.dict[k] < |c.handles|;
      }
    }
  }

  /** The entry is not final: when the replaced load later completes with an
      asset, its own call re-stores its handle, so `Dispose` releases that one
      and the handle that replaced it is the one never released. */
  lemma RestoredHandleWinsBack<T>(c: Cache<T>, location: Location, asset: T)
    requires Valid(c)
    ensures
      var id := |c.handles|;
      var s1 := StoreLocation(c, Some(location));
      var s2 := StoreLocation(s1.cache, Some(location));
      var s4 := ResumeLoad(Settle(s2.cache, id, Succeeded(Some(asset))), id);
      && s4.call == Returned(Some(asset))
      && s4.cache.dict[location.primaryKey] == id
      && forall released: seq<Release> :: ReleasesEachEntryOnce(s4.cache, released) ==>
           && (exists i :: 0 <= i < |released| && released[i].id == id)
           && (forall i :: 0 <= i < |released| ==> released[i].id != id + 1)
  {
    var id := |c.handles|;
    var k := location.primaryKey;
    var s1 := StoreLocation(c, Some(location));
    var s2 := StoreLocation(s1.cache, Some(location));
    var s4 := ResumeLoad(Settle(s2.cache, id, Succeeded(Some(asset))), id);
    forall released: seq<Release> | ReleasesEachEntryOnce(s4.cache, released)
      ensures exists i :: 0 <= i < |released| && released[i].id == id
      ensures forall i :: 0 <= i < |released| ==> released[i].id != id + 1
    {
      ReleasedKeysWitness(released, k);
      forall i | 0 <= i < |released| ensures released[i].id != id + 1 {
        var key := released[i].key;
        if key != k {
          assert s4.cache.dict[key] == c.dict[key] < |c.handles|;
        }
      }
    }
  }

  /** A failed location resolution faults `Store(address)`, `Store(reference)`
      and `Store(label)` alike, since none of their resolution awaits is inside
      a `try`, and no load is issued. */
  lemma FailedResolutionFaults<T>(c: Cache<T>, k: string, reference: AssetKey, labelRef: AssetKey)
    requires Valid(c) && k !in c.dict && k != ""
    requires reference.runtimeKeyValid && labelRef.runtimeKeyValid
    ensures StoreAddress(c, Some(k)) == AwaitingLocations
    ensures StoreReference(c, Some(reference)) == Stepped(c, AwaitingLocations)
    ensures StoreLabel(c, Some(labelRef)) == BatchStepped(c, AwaitingLabelLocations)
    ensures ResumeLocations(c, ResolveFailed) == Stepped(c, Threw)
    ensures ResumeLabelLocations(c, ResolveFailed) == BatchStepped(c, LabelThrew)
  {
  }

  /** The as-written first step faults on a null address, which the code's own
      `IsNullOrEmpty` check was meant to turn into `default`. */
  lemma NullAddressFaults<T>(c: Cache<T>)
    ensures StoreAddressAsWritten(c, None).Threw?
    ensures StoreAddress(c, None) == Returned(None)
  {
  }
}

=== FILE: wrappers.dfy ===
/** Optional values. `None` stands for a C# `null` reference or `default(T)`. */
module Wrappers {

  datatype Option<+T> = None | Some(value: T)

}
